=== FILE: README.md ===
# dstruct, modelled in Dafny

`DStruct` is a small Python 2 container. It wraps a dictionary and/or keyword
arguments as an object with attribute access. Subclasses declare required
attributes with `DStruct.RequiredAttribute(type)` markers. The struct then
checks the attributes it was built with against a schema. That schema is
gathered from the markers of every class in the subclass's inheritance tree.
When a required attribute is absent, the check raises
`RequiredAttributeMissing`. When it is present but of the wrong type, the check
raises `RequiredAttributeInvalid`. Two names and one class method can be set
per subclass:

- `struct_schema_check_on_init` postpones the check.
- `get_extra_allowed_types` widens what counts as the right type.
- `required_attributes` is the class property that collects the schema.

The project has four modules:

- `PyTypes` (`pytypes.dfy`) holds the Python runtime facts the container relies on.
  - A class graph, where `__bases__` is a map and classes are names.
  - `isinstance`, defined as reachability through that map (every value is an `object`).
  - Transitivity of the ancestor relation, and acyclicity: no class is among its own bases' ancestors. A well-formed hierarchy gives `object` no bases.
- `Utils` (`utils.dfy`) models the helpers of `utils.py`.
  - `dedupe_list` is an imperative loop proved equal to a first-occurrence filter. That filter is proved to keep the same elements, with no duplicates, in first-occurrence order.
  - `snake_to_mixed` is the loop that rewrites the split word list in place, proved against `MixedCase`.
  - `extract_classes` is modelled as written: recursive concatenation, removal of `object`, then dedupe. It is proved equal to the de-duplicated depth-first pre-order walk without `object`. Its elements are exactly the class's ancestors other than `object`, and the class itself comes first.
- `DStruct` (`dstruct.dfy`) models the container.
  - The free functions `Merge`, `SchemaOf` and `Reports` are the specifications.
  - The methods are the source's loops: `required_attributes` with its nested loop, the validation loop of `check_struct_schema`, and the `isinstance` comprehension.
  - The class `Struct` carries `self.__dict__` as a `map` field. Its methods update that field in place.
- `Scenarios` (`scenarios.dfy`) replays the class graphs of `tests/tests.py` against the model: `MapLocation`, `HippieStruct` and a deferred-check `Product`. It also proves two small graphs of its own that show how the schema is collected: a single-base `Sub(Base)` and the diamond `D(B, C)`, `B(A)`, `C(A)`.

Markers and overrides are read off each class through a `Declarations` value,
which holds the value each class resolves for `struct_schema_check_on_init`
and `get_extra_allowed_types`. The model does not look these up through
Python's attribute resolution.

The schema is collected as the code does it. The classes are walked in
`extract_classes` order, subclass first. Each marker is written into the
dictionary, overwriting an entry of the same name. So when several classes
declare the same attribute, the type from the class that comes LAST in
`extract_classes` order ends up in the schema (`DStruct.SchemaOfLast`). In a
single-inheritance chain that is the base class:
`Scenarios.BaseDeclarationOverwrites` shows this. In a diamond it need not be.
For `D(B, C)`, `B(A)`, `C(A)`, the walk is `[D, B, A, C]`: `A` is visited
before its subclass `C`, so `C`'s type wins over `A`'s
(`Scenarios.DiamondSubclassWins`). The model keeps that behaviour.

A `Struct` instance belongs to a struct class: `DStruct` itself or a subclass
of it. Those are the classes that have `required_attributes`. Checking against
any other class (such as `int`) raises `AttributeError` in the source; the
model reports it as the outcome `NoSchema`.

The constructor sets the instance attribute `_struct_has_loaded` to `True`
(dstruct.py:143). No other loaded or validated flag exists in the code.

## Model

| member | source | states |
|---|---|---|
| PyTypes.IsInstance | dstruct.py:226-227 | `isinstance(v, t)`: `t` is `object` or reachable from the value's class through `__bases__`; every value is an instance of its own class and of `object` |
| PyTypes.AncestorsOfBases | dstruct.py:226-227 | a class and each of its direct bases are among its ancestors, so `isinstance` holds for its own class and its bases |
| PyTypes.AncestorsTransitive | dstruct.py:226-227 | an ancestor's ancestors are ancestors: the relation `isinstance` walks is transitive |
| PyTypes.AncestorsRank | utils.py:45-46 | every ancestor ranks no higher than the class, so no class is reachable from its own bases and the recursion of `extract_classes` ends |
| PyTypes.InstanceOfSubclass | dstruct.py:226-227 | an instance of a subclass of `t` is an instance of `t` |
| Utils.RemoveFirst | utils.py:49-50 | `list.remove`: drops exactly the first occurrence when present, leaves the list unchanged when absent |
| Utils.DedupeList | utils.py:4-14 | the comprehension with its `seen` set returns the first-occurrence filter of the input |
| Utils.DedupeCorrect | utils.py:4-14 | the result has the input's elements, no duplicates, and keeps the relative order of first occurrences |
| Utils.DedupeUnchanged | utils.py:4-14 | a list without duplicates is returned unchanged |
| Utils.DedupeIdempotent | utils.py:4-14 | for every list, deduping twice equals deduping once |
| Utils.SplitOn | utils.py:22 | `s.split(sep)` for a single separator, empty parts kept (on the whitespace set, `NonEmpty` of its result is `s.split()`): at least one part; each part holds only characters of the input and never a separator |
| Utils.Join | utils.py:27 | `''.join`: the result starts with the first part and holds nothing but separator characters and part characters |
| Utils.SplitJoin | utils.py:22 | joining `s.split(c)` with `c` gives back `s` |
| Utils.Capitalize | utils.py:26 | one word as `capwords` rewrites it: same length, first character upper-cased, the rest lower-cased; only letters change |
| Utils.CapWordsSingleWord | utils.py:26 | `string.capwords` of a whitespace-free word is that word capitalised |
| Utils.CapWords | utils.py:26 | `string.capwords`: every character of the result is from the input, a space, or an ASCII letter, so in particular it introduces no underscore |
| Utils.SnakeToMixed | utils.py:17-28 | the loop that capitalises every word after the first and joins them returns `MixedCase` of the input |
| Utils.MixedCaseNoUnderscoreUnchanged | utils.py:22-28 | an input without underscores is returned unchanged |
| Utils.MixedCaseNoUnderscore | utils.py:22-28 | the output has no underscore and starts with the first `_`-separated segment, unchanged |
| Utils.MixedCaseWhitespaceFree | utils.py:22-28 | for a whitespace-free input, the output is the first segment followed by every later segment capitalised |
| Utils.ExtractClasses | utils.py:32-52 | `extract_classes` as written: the result never holds `object`, has no duplicates, and starts with the class itself unless it is `object` |
| Utils.ExtractIsDedupedPreOrder | utils.py:32-52 | `extract_classes` equals the dedupe of the depth-first pre-order walk over `__bases__` without `object` |
| Utils.ExtractClassesCorrect | utils.py:32-52 | the result lists every ancestor except `object` exactly once, and starts with the class itself |
| Utils.ExtractClassesOfObject | utils.py:43-50 | `extract_classes(object)` is empty (in every well-formed hierarchy `object` has no bases) |
| Utils.ExtractClassesSingleBase | utils.py:43-52 | with one base, the result is the class followed by the base's result (the class cannot reappear among its base's ancestors) |
| DStruct.Merge | dstruct.py:149-155 | the loaded dictionary: keyword entries win over the dict, the dict over earlier contents; a missing or empty dict contributes nothing |
| DStruct.Struct.LoadStructInputs | dstruct.py:149-155 | `self.__dict__` becomes its old contents merged with the dict and then the entries |
| DStruct.Struct.Create | dstruct.py:121-147 | for a struct class (`DStruct` or a subclass), construction loads the inputs, which read back through `__getitem__`, and sets `_struct_has_loaded`; it raises exactly when the class checks on init and the fields do not conform, and a raised error names a genuinely violated requirement |
| DStruct.DefaultExtraAllowedTypes | dstruct.py:157-183 | `str` and `unicode` stand in for each other (both directions); every other type has no substitute |
| DStruct.GetExtraAllowedTypes | dstruct.py:157-183 | the list the class's `get_extra_allowed_types` returns: its override, or the default rule |
| DStruct.Acceptable | dstruct.py:220-227 | the value passes the type test exactly when it is an instance of the required type or of one of the extra types the class allows for it |
| DStruct.SubclassAcceptable | dstruct.py:220-227 | an instance of a subclass of the required type always passes the type check |
| DStruct.DefaultRuleAcceptable | dstruct.py:220-227 | under the default rule a `str` or a `unicode` field accepts exactly the instances of `str` and of `unicode` (subclasses included); any other type accepts exactly its own instances |
| DStruct.OverwriteMarkers | dstruct.py:250-252 | one class's markers are written into the dictionary: union of names, the new marker overwriting the old |
| DStruct.CollectRequiredAttributes | dstruct.py:234-254 | the nested loop over `extract_classes(cls)` returns the schema `SchemaOf(cls)` |
| DStruct.CollectMarkersKeys | dstruct.py:247-254 | a name is collected exactly when some walked class declares it |
| DStruct.CollectMarkersLast | dstruct.py:247-254 | a collected name carries the type from the last walked class that declares it |
| DStruct.SchemaOfKeys | dstruct.py:234-254 | a name is required exactly when some ancestor other than `object` declares a marker for it |
| DStruct.SchemaOfLast | dstruct.py:234-254 | a name's required type comes from the last class in `extract_classes` order that declares it |
| DStruct.NoMarkersConforms | dstruct.py:210-213 | a class whose ancestry declares no markers has an empty schema and accepts any fields |
| DStruct.InstanceHits | dstruct.py:226-227 | the comprehension is empty exactly when the value is an instance of none of the allowed types |
| DStruct.Struct.CheckFields | dstruct.py:210-229 | the loop passes exactly when every required attribute is present and acceptably typed; otherwise it reports a missing key, or a present key whose value fails its type |
| DStruct.Struct.CheckStructSchema | dstruct.py:187-229 | checks against the given class's schema, or the instance's own class when none is given; a class that is not a struct class yields `NoSchema` (the `AttributeError`) exactly when it is not one; otherwise passes iff the fields conform, and a failure names a real violation |
| DStruct.Struct.GetItem | dstruct.py:231-232 | `self[key]` yields a value exactly when the key is in the instance dictionary, and that value is the stored one |
| Scenarios.MapLocationSchema | tests/tests.py:82-94 | `extract_classes(MapLocation)` is `[MapLocation, DStruct]` and the schema is its three markers |
| Scenarios.MapLocationValid | tests/tests.py:108-111 | float coordinates and a `Label` (a `BaseLabel` subclass) conform |
| Scenarios.MapLocationIntLongitude | tests/tests.py:147-153 | an `int` longitude does not conform |
| Scenarios.MapLocationMissingLabel | tests/tests.py:163-169 | a location without `label` does not conform |
| Scenarios.HippieStructInterchange | tests/tests.py:200-229 | with the override (which keeps the inherited `str`/`unicode` rule), a `float` is acceptable for an `int` attribute and an `int` for a `float` one, and a `str` still is not an `int` |
| Scenarios.BaseDeclarationOverwrites | dstruct.py:249-252 | for a single-base `Sub(Base)` where both declare the same name, the base's type ends up in the schema |
| Scenarios.DiamondExtract | utils.py:43-50 | for the diamond `D(B, C)`, `B(A)`, `C(A)`, `extract_classes(D)` is `[D, B, A, C]`: `A` comes before its subclass `C` |
| Scenarios.DiamondSubclassWins | dstruct.py:249-252 | in that diamond, when `A` and its subclass `C` declare the same name, `C`'s type ends up in the schema, because `C` is walked last |
| Scenarios.NonStructTargetScenario | dstruct.py:207-211 | checking a struct against `int`, which has no `required_attributes`, yields `NoSchema` (the `AttributeError`) |
| Scenarios.ProductSchema | tests/tests.py:233-242 | the deferred-check class's schema is its own markers |
| Scenarios.TextCategoryAcceptable | dstruct.py:178-181 | a `str` or `unicode` value is acceptable for a `str` attribute |
| Scenarios.ProductWithoutCategory | tests/tests.py:265-269 | without `category`, the only error the check can raise is the missing `category` |
| Scenarios.ProductWithTextCategory | tests/tests.py:256-260 | with a `str` (or `unicode`) `category`, the check passes |
| Scenarios.DeferredCheckScenario | tests/tests.py:231-269 | construction with the check postponed succeeds; the explicit check then reports `category` missing, and passes once it is assigned |

## Left out

- The `classproperty` descriptor and `ClassPropertyError` (utils.py:55-78) are Python attribute plumbing. The model gives each class its resolved values directly.
- Attribute lookup through the method resolution order is not modelled. A class that inherits an override of `get_extra_allowed_types` or a `struct_schema_check_on_init = False` must be listed with that resolved value in `Declarations`.
- A class-level literal `required_attributes = {...}` dictionary, which shadows the class property (tests/tests.py:180-198), is not modelled. The schema is always the collected markers. A class outside the `DStruct` tree that defines such a dictionary would be checked by the source; the model reports `NoSchema` for it.
- An overriding `get_extra_allowed_types` is arbitrary Python code. It is modelled by the table of lists it returns for each type.
- The messages of `RequiredAttributeMissing` and `RequiredAttributeInvalid` are not modelled. The outcome keeps only the key and, for an invalid value, the value.
- DStruct.Struct.CheckStructSchema: reports `Invalid(key, value)` wherever the source raises `RequiredAttributeInvalid`. But building that exception's message (dstruct.py:293-297) can itself raise, and then the caller sees a different exception, which the model does not capture. This happens in two cases. (1) dstruct.py:295 looks the key up in the instance's own class's `required_attributes`. When `clazz` is a class whose schema requires a typed key that the instance's class does not require, that lookup raises `KeyError`. (2) dstruct.py:296 formats the value into a byte string. A `unicode` value with non-ASCII characters makes that raise `UnicodeEncodeError`.
- DStruct.Struct.CheckFields: does not fix which violated key is reported when several are, because the source walks a dictionary whose iteration order it does not control. The contract only states that the reported key is genuinely missing or invalid.
- DStruct.Struct.GetItem: returns `None` where Python raises `KeyError`.
- Attribute access `struct.k` is not modelled, only `struct[k]`. Attribute access also finds class attributes such as the markers themselves.
- `preserve_order` in `dedupe_list` is accepted and ignored by the source, so the model has no such parameter.
- Utils.Capitalize: maps case for ASCII letters only. The Unicode case tables Python would use for `unicode` input are not modelled.
- Utils.CapWords: splits on the whitespace of byte strings (space, tab, newline, carriage return, vertical tab, form feed). For `unicode` input Python also splits on `\x1c`-`\x1f`, `\x85`, `\xa0` and the Unicode space characters, which the model does not.
- Values are a class name and an identity. Their contents (numbers, strings, floats) do not decide whether a check passes, so they are not modelled. They can decide which exception surfaces when it fails; see the `DStruct.Struct.CheckStructSchema` line.
- Truthiness tests such as `if not clazz`, `if required_type` and `if not input_dict` are modelled as `Option` cases. A class object is always truthy. A falsy non-dict `input_dict` (such as `0` or `[]`) would be ignored by the source just like `{}`; the model admits only dicts.
- Old-style classes, metaclasses and `__instancecheck__` are outside the model of `isinstance`.
- Scenarios.ProductSchema: the deferred-check class of tests/tests.py:233-254 declares four attributes and sets `price_displayed` in its own `__init__`. The scenario keeps the one attribute whose absence the test exercises, `category`.
- tests/base_test_case.py is test-harness plumbing and is not part of this model.

=== FILE: dstruct.dfy ===
/**
  The schema-validating attribute container of `dstruct.py`: a struct whose
  instance dictionary is loaded from an optional dict and keyword entries,
  whose class collects `RequiredAttribute` markers from its whole ancestry
  into a schema, and whose check reports a missing or an ill-typed required
  attribute.
 */
module DStruct {
  import opened PyTypes
  import Utils

  /** The instance attribute `__init__` sets to `True` once the inputs are loaded. */
  const HasLoadedKey: string := "_struct_has_loaded"

  /** Required attribute names, each with its optional required type (`None`: presence suffices). */
  type Schema = map<string, Option<ClassId>>

  /**
    What the struct machinery reads off each class, resolved per class.
    `markers[c]`: the `RequiredAttribute` markers in `c`'s own `__dict__`, by name, with their `required_type`.
    `deferCheck`: the classes whose `struct_schema_check_on_init` is `False` (it is `True` for all others).
    `extraTypes[c]`: for a class that overrides `get_extra_allowed_types`, the list its override returns for each type
    (a type missing from the table gets the empty list).
   */
  datatype Declarations = Declarations(
    markers: map<ClassId, Schema>,
    deferCheck: set<ClassId>,
    extraTypes: map<ClassId, map<ClassId, seq<ClassId>>>)

  function OwnMarkers(d: Declarations, c: ClassId): Schema
  {
    if c in d.markers then d.markers[c] else map[]
  }

  predicate CheckOnInit(d: Declarations, c: ClassId)
  {
    c !in d.deferCheck
  }

  /** The struct base class itself. */
  const StructBase: ClassId := "DStruct"

  /**
    A class that has the struct machinery (`required_attributes`,
    `get_extra_allowed_types`): `DStruct` or one of its subclasses.
   */
  predicate IsStructClass(h: Hierarchy, c: ClassId)
    requires WellFormed(h)
  {
    StructBase in Ancestors(h, c)
  }

  /** The result of a schema check: success, or the error `check_struct_schema` raises. */
  datatype CheckOutcome =
    | Passed
    | Missing(key: string)                 // RequiredAttributeMissing
    | Invalid(key: string, value: Value)   // RequiredAttributeInvalid
    | NoSchema(clazz: ClassId)             // AttributeError: `clazz` has no `required_attributes`

  // ---------------------------------------------------------------------------
  // Field loading
  // ---------------------------------------------------------------------------

  /** `if not input_dict: input_dict = {}`: a missing or empty dict contributes nothing. */
  function DictOrEmpty(inputDict: Option<map<string, Value>>): map<string, Value>
  {
    if inputDict.None? || inputDict.value == map[] then map[] else inputDict.value
  }

  /**
    The instance dictionary after `load_struct_inputs`: `base` updated with
    the dict, then with the keyword entries, so keyword entries win.
   */
  function Merge(base: map<string, Value>, inputDict: Option<map<string, Value>>, entries: map<string, Value>)
    : (r: map<string, Value>)
    ensures r.Keys == base.Keys + DictOrEmpty(inputDict).Keys + entries.Keys
    ensures forall k :: k in entries ==> r[k] == entries[k]
    ensures inputDict.Some? ==> forall k :: k in inputDict.value && k !in entries ==> r[k] == inputDict.value[k]
    ensures forall k :: k in base && k !in DictOrEmpty(inputDict) && k !in entries ==> r[k] == base[k]
    ensures inputDict.None? ==> r == base + entries
  {
    base + DictOrEmpty(inputDict) + entries
  }

  // ---------------------------------------------------------------------------
  // Extra allowed types
  // ---------------------------------------------------------------------------

  /** `DStruct.get_extra_allowed_types`: `str` and `unicode` stand in for each other, nothing else has a substitute. */
  function DefaultExtraAllowedTypes(t: ClassId): (r: seq<ClassId>)
    ensures |r| <= 1
    ensures forall u :: u in r ==> u == Str || u == Unicode
    ensures Unicode in r <==> t == Str
    ensures Str in r <==> t == Unicode
  {
    if t == Str then [Unicode]
    else if t == Unicode then [Str]
    else []
  }

  /** `clazz.get_extra_allowed_types(t)`: the class's override when it has one, the default otherwise. */
  function ExtraAllowedTypes(d: Declarations, clazz: ClassId, t: ClassId): seq<ClassId>
  {
    if clazz in d.extraTypes then
      (if t in d.extraTypes[clazz] then d.extraTypes[clazz][t] else [])
    else DefaultExtraAllowedTypes(t)
  }

  /** `get_extra_allowed_types`, appending to a list; a class's override is looked up in its table. */
  method GetExtraAllowedTypes(d: Declarations, clazz: ClassId, t: ClassId) returns (extraTypes: seq<ClassId>)
    ensures extraTypes == ExtraAllowedTypes(d, clazz, t)
  {
    if clazz in d.extraTypes {
      var table := d.extraTypes[clazz];
      extraTypes := if t in table then table[t] else [];
      return;
    }
    extraTypes := [];
    if t == Str {
      extraTypes := extraTypes + [Unicode];
    } else if t == Unicode {
      extraTypes := extraTypes + [Str];
    }
  }

  /** `[required_type] + clazz.get_extra_allowed_types(required_type)` */
  function AllowedTypes(d: Declarations, clazz: ClassId, t: ClassId): seq<ClassId>
  {
    [t] + ExtraAllowedTypes(d, clazz, t)
  }

  /**
    Some allowed type matches: the value is an instance of the required type
    or of one of the extra types `clazz` allows for it.
   */
  predicate Acceptable(h: Hierarchy, d: Declarations, clazz: ClassId, v: Value, t: ClassId)
    requires WellFormed(h)
    ensures Acceptable(h, d, clazz, v, t) <==>
      IsInstance(h, v, t) || exists u :: u in ExtraAllowedTypes(d, clazz, t) && IsInstance(h, v, u)
  {
    var allowed := AllowedTypes(d, clazz, t);
    assert allowed[0] == t;
    assert forall j :: 0 <= j < |ExtraAllowedTypes(d, clazz, t)| ==> allowed[j + 1] == ExtraAllowedTypes(d, clazz, t)[j];
    exists i :: 0 <= i < |allowed| && IsInstance(h, v, allowed[i])
  }

  /** An instance of the required type or of any of its subclasses is acceptable. */
  lemma SubclassAcceptable(h: Hierarchy, d: Declarations, clazz: ClassId, v: Value, sub: ClassId, t: ClassId)
    requires WellFormed(h)
    requires sub in Ancestors(h, v.cls) && t in Ancestors(h, sub)
    ensures Acceptable(h, d, clazz, v, t)
  {
    InstanceOfSubclass(h, v, sub, t);
    assert AllowedTypes(d, clazz, t)[0] == t;
  }

  /**
    Under the default rule a `str` field accepts exactly the instances of
    `str` and of `unicode`, and so does a `unicode` field; any other required
    type accepts exactly its own instances.
   */
  lemma DefaultRuleAcceptable(h: Hierarchy, d: Declarations, clazz: ClassId, v: Value, t: ClassId)
    requires WellFormed(h) && clazz !in d.extraTypes
    ensures t == Str ==> (Acceptable(h, d, clazz, v, t) <==> IsInstance(h, v, Str) || IsInstance(h, v, Unicode))
    ensures t == Unicode ==> (Acceptable(h, d, clazz, v, t) <==> IsInstance(h, v, Unicode) || IsInstance(h, v, Str))
    ensures t != Str && t != Unicode ==> (Acceptable(h, d, clazz, v, t) <==> IsInstance(h, v, t))
  {
    if t == Str {
      assert ExtraAllowedTypes(d, clazz, t) == [Unicode];
    } else if t == Unicode {
      assert ExtraAllowedTypes(d, clazz, t) == [Str];
    } else {
      assert ExtraAllowedTypes(d, clazz, t) == [];
    }
  }

  // ---------------------------------------------------------------------------
  // Schema collection
  // ---------------------------------------------------------------------------

  /** The markers of the classes `cs`, in order: a later class's marker overwrites an earlier one. */
  function CollectMarkers(d: Declarations, cs: seq<ClassId>): Schema
    decreases |cs|
  {
    if cs == [] then map[]
    else CollectMarkers(d, cs[..|cs| - 1]) + OwnMarkers(d, cs[|cs| - 1])
  }

  /** The `required_attributes` class property of `cls`. */
  function SchemaOf(h: Hierarchy, d: Declarations, cls: ClassId): Schema
    requires WellFormed(h)
  {
    CollectMarkers(d, Utils.ExtractClasses(h, cls))
  }

  /**
    The inner loop of `required_attributes`: every marker of one class is
    written into the dictionary, overwriting an entry of the same name.
   */
  method OverwriteMarkers(acc: Schema, own: Schema) returns (updated: Schema)
    ensures updated.Keys == acc.Keys + own.Keys
    ensures forall k :: k in own ==> updated[k] == own[k]
    ensures forall k :: k in acc && k !in own ==> updated[k] == acc[k]
  {
    updated := acc;
    var keys := own.Keys;
    while keys != {}
      invariant keys <= own.Keys
      invariant updated.Keys == acc.Keys + (own.Keys - keys)
      invariant forall k :: k in own && k !in keys ==> updated[k] == own[k]
      invariant forall k :: k in acc && (k !in own || k in keys) ==> updated[k] == acc[k]
      decreases keys
    {
      var key :| key in keys;
      updated := updated[key := own[key]];
      keys := keys - {key};
    }
  }

  /** `required_attributes`: nested loops over `extract_classes(cls)` and each class's own markers. */
  method CollectRequiredAttributes(h: Hierarchy, d: Declarations, cls: ClassId) returns (requiredAttributes: Schema)
    requires WellFormed(h)
    ensures requiredAttributes == SchemaOf(h, d, cls)
  {
    requiredAttributes := map[];
    var classes := Utils.ExtractClasses(h, cls);
    for n := 0 to |classes|
      invariant requiredAttributes == CollectMarkers(d, classes[..n])
    {
      var own := OwnMarkers(d, classes[n]);
      requiredAttributes := OverwriteMarkers(requiredAttributes, own);
      assert classes[..n + 1][..n] == classes[..n];
      assert requiredAttributes == CollectMarkers(d, classes[..n]) + own;
    }
    assert classes[..|classes|] == classes;
  }

  /** A name is collected exactly when some class in the walk declares it. */
  lemma {:induction false} CollectMarkersKeys(d: Declarations, cs: seq<ClassId>, key: string)
    ensures key in CollectMarkers(d, cs) <==> exists i :: 0 <= i < |cs| && key in OwnMarkers(d, cs[i])
    decreases |cs|
  {
    if cs != [] {
      var init := cs[..|cs| - 1];
      CollectMarkersKeys(d, init, key);
      if key in CollectMarkers(d, init) {
        var i :| 0 <= i < |init| && key in OwnMarkers(d, init[i]);
        assert cs[i] == init[i];
      }
      if exists i :: 0 <= i < |cs| && key in OwnMarkers(d, cs[i]) {
        var i :| 0 <= i < |cs| && key in OwnMarkers(d, cs[i]);
        if i < |cs| - 1 {
          assert init[i] == cs[i];
        }
      }
    }
  }

  /** A collected name carries the type of the last class in the walk that declares it. */
  lemma {:induction false} CollectMarkersLast(d: Declarations, cs: seq<ClassId>, key: string, j: nat)
    requires j < |cs| && key in OwnMarkers(d, cs[j])
    requires forall i :: j < i < |cs| ==> key !in OwnMarkers(d, cs[i])
    ensures key in CollectMarkers(d, cs) && CollectMarkers(d, cs)[key] == OwnMarkers(d, cs[j])[key]
    decreases |cs|
  {
    if j < |cs| - 1 {
      var init := cs[..|cs| - 1];
      assert init[j] == cs[j];
      CollectMarkersLast(d, init, key, j);
    }
  }

  /**
    A name is in `required_attributes(cls)` exactly when some ancestor of
    `cls` other than `object` declares a marker under it.
   */
  lemma SchemaOfKeys(h: Hierarchy, d: Declarations, cls: ClassId, key: string)
    requires WellFormed(h)
    ensures key in SchemaOf(h, d, cls) <==>
      exists c :: c in Ancestors(h, cls) && c != Object && key in OwnMarkers(d, c)
  {
    var cs := Utils.ExtractClasses(h, cls);
    Utils.ExtractClassesCorrect(h, cls);
    CollectMarkersKeys(d, cs, key);
    if exists c :: c in Ancestors(h, cls) && c != Object && key in OwnMarkers(d, c) {
      var c :| c in Ancestors(h, cls) && c != Object && key in OwnMarkers(d, c);
      var i :| 0 <= i < |cs| && cs[i] == c;
    }
  }

  /**
    The type recorded for a name is the one declared by the last class in
    `extract_classes(cls)` that declares it.
   */
  lemma SchemaOfLast(h: Hierarchy, d: Declarations, cls: ClassId, key: string, j: nat)
    requires WellFormed(h)
    requires j < |Utils.ExtractClasses(h, cls)| && key in OwnMarkers(d, Utils.ExtractClasses(h, cls)[j])
    requires forall i :: j < i < |Utils.ExtractClasses(h, cls)| ==> key !in OwnMarkers(d, Utils.ExtractClasses(h, cls)[i])
    ensures key in SchemaOf(h, d, cls)
    ensures SchemaOf(h, d, cls)[key] == OwnMarkers(d, Utils.ExtractClasses(h, cls)[j])[key]
  {
    CollectMarkersLast(d, Utils.ExtractClasses(h, cls), key, j);
  }

  // ---------------------------------------------------------------------------
  // Validation
  // ---------------------------------------------------------------------------

  /** A required attribute is present and, when it has a required type, acceptably typed. */
  predicate Satisfies(h: Hierarchy, d: Declarations, clazz: ClassId, fields: map<string, Value>, schema: Schema, key: string)
    requires WellFormed(h) && key in schema
  {
    key in fields && (schema[key].Some? ==> Acceptable(h, d, clazz, fields[key], schema[key].value))
  }

  /** The fields meet every requirement of `schema`. */
  predicate ConformsTo(h: Hierarchy, d: Declarations, clazz: ClassId, fields: map<string, Value>, schema: Schema)
    requires WellFormed(h)
  {
    forall key :: key in schema ==> Satisfies(h, d, clazz, fields, schema, key)
  }

  /** The fields meet every requirement of `clazz`'s schema. */
  predicate Conforms(h: Hierarchy, d: Declarations, clazz: ClassId, fields: map<string, Value>)
    requires WellFormed(h)
  {
    ConformsTo(h, d, clazz, fields, SchemaOf(h, d, clazz))
  }

  /** The outcome is true of the fields: success when they conform, otherwise a genuinely violated requirement. */
  predicate ReportsFor(h: Hierarchy, d: Declarations, clazz: ClassId, fields: map<string, Value>,
                       schema: Schema, outcome: CheckOutcome)
    requires WellFormed(h)
  {
    match outcome
    case Passed => ConformsTo(h, d, clazz, fields, schema)
    case Missing(key) => key in schema && key !in fields
    case Invalid(key, value) =>
      key in schema && key in fields && fields[key] == value
      && schema[key].Some? && !Acceptable(h, d, clazz, value, schema[key].value)
    case NoSchema(_) => false
  }

  /**
    The outcome of checking against `clazz`: for a struct class, what
    `ReportsFor` allows on its schema; for any other class, the
    `AttributeError` of looking up its `required_attributes`.
   */
  predicate Reports(h: Hierarchy, d: Declarations, clazz: ClassId, fields: map<string, Value>, outcome: CheckOutcome)
    requires WellFormed(h)
  {
    if IsStructClass(h, clazz) then ReportsFor(h, d, clazz, fields, SchemaOf(h, d, clazz), outcome)
    else outcome == NoSchema(clazz)
  }

  /** A class none of whose ancestors declares a marker accepts any fields. */
  lemma NoMarkersConforms(h: Hierarchy, d: Declarations, clazz: ClassId, fields: map<string, Value>)
    requires WellFormed(h)
    requires forall c :: c in Ancestors(h, clazz) ==> OwnMarkers(d, c) == map[]
    ensures SchemaOf(h, d, clazz) == map[]
    ensures Conforms(h, d, clazz, fields)
  {
    forall key | key in SchemaOf(h, d, clazz) ensures false {
      SchemaOfKeys(h, d, clazz, key);
    }
  }

  /**
    The comprehension `[1 for allowed_type in allowed_types if isinstance(value, allowed_type)]`:
    it is empty exactly when the value is an instance of none of the types.
   */
  method InstanceHits(h: Hierarchy, v: Value, allowedTypes: seq<ClassId>) returns (hits: seq<int>)
    requires WellFormed(h)
    ensures hits == [] <==> forall i :: 0 <= i < |allowedTypes| ==> !IsInstance(h, v, allowedTypes[i])
  {
    hits := [];
    for j := 0 to |allowedTypes|
      invariant hits == [] <==> forall i :: 0 <= i < j ==> !IsInstance(h, v, allowedTypes[i])
    {
      if IsInstance(h, v, allowedTypes[j]) {
        hits := hits + [1];
      }
    }
  }

  /** The struct: a class whose instance dictionary the operations update in place. */
  class Struct {
    /** The class graph the program defines. */
    const h: Hierarchy
    /** The class-level declarations of every class. */
    const d: Declarations
    /** `self.__class__` */
    const cls: ClassId
    /** `self.__dict__` */
    var fields: map<string, Value>

    /** The class graph is Python's, and the instance's class is a struct class. */
    predicate Valid()
    {
      WellFormed(h) && IsStructClass(h, cls)
    }

    /** Allocation: an instance of the struct class `cls` with an empty instance dictionary. */
    constructor (h: Hierarchy, d: Declarations, cls: ClassId)
      requires WellFormed(h) && IsStructClass(h, cls)
      ensures Valid() && this.h == h && this.d == d && this.cls == cls
      ensures fields == map[]
    {
      this.h := h;
      this.d := d;
      this.cls := cls;
      fields := map[];
    }

    /** `load_struct_inputs`: update the instance dictionary with the dict, then with the keyword entries. */
    method LoadStructInputs(inputDict: Option<map<string, Value>>, entries: map<string, Value>)
      modifies this
      ensures fields == Merge(old(fields), inputDict, entries)
    {
      var dict := DictOrEmpty(inputDict);
      fields := fields + dict;
      fields := fields + entries;
    }

    /**
      `check_struct_schema(clazz)`: walks the schema of `clazz` (the
      instance's own class when none is given) and stops at the first
      requirement that is not met. A `clazz` that is not a struct class has
      no schema to walk: the lookup raises `AttributeError`. It changes
      nothing.
     */
    method CheckStructSchema(clazz: Option<ClassId>) returns (outcome: CheckOutcome)
      requires Valid()
      ensures var target := if clazz.Some? then clazz.value else cls;
        && Reports(h, d, target, fields, outcome)
        && (outcome.Passed? <==> IsStructClass(h, target) && Conforms(h, d, target, fields))
        && (outcome.NoSchema? <==> !IsStructClass(h, target))
    {
      var target := if clazz.Some? then clazz.value else cls;
      if !IsStructClass(h, target) {
        return NoSchema(target);
      }
      var requiredAttributes := CollectRequiredAttributes(h, d, target);
      outcome := CheckFields(target, requiredAttributes);
    }

    /** The loop of `check_struct_schema` over the collected `requiredAttributes`, raising at the first failure. */
    method CheckFields(target: ClassId, requiredAttributes: Schema) returns (outcome: CheckOutcome)
      requires Valid()
      ensures ReportsFor(h, d, target, fields, requiredAttributes, outcome)
      ensures outcome.Passed? <==> ConformsTo(h, d, target, fields, requiredAttributes)
    {
      if |requiredAttributes| > 0 {
        var keys := requiredAttributes.Keys;
        while keys != {}
          invariant keys <= requiredAttributes.Keys
          invariant forall k :: k in requiredAttributes && k !in keys ==>
            Satisfies(h, d, target, fields, requiredAttributes, k)
          decreases keys
        {
          var key :| key in keys;
          if key !in fields {
            return Missing(key);
          }
          var requiredType := requiredAttributes[key];
          if requiredType.Some? {
            var extra := GetExtraAllowedTypes(d, target, requiredType.value);
            var allowedTypes := [requiredType.value] + extra;
            assert allowedTypes == AllowedTypes(d, target, requiredType.value);
            var hits := InstanceHits(h, fields[key], allowedTypes);
            if hits == [] {
              return Invalid(key, fields[key]);
            }
            assert Acceptable(h, d, target, fields[key], requiredType.value);
          }
          keys := keys - {key};
        }
      }
      return Passed;
    }

    /** `self[key]`: the stored value, or `None` where Python raises `KeyError`. */
    function GetItem(key: string): (r: Option<Value>)
      reads this
      ensures r.Some? <==> key in fields
      ensures r.Some? ==> r.value == fields[key]
    {
      if key in fields then Some(fields[key]) else None
    }

    /**
      `DStruct(input_dict, **entries)`: allocate, load the inputs, set
      `_struct_has_loaded`, then run the schema check when the class's
      `struct_schema_check_on_init` is true. `outcome` is `Passed` when the
      constructor returns, and otherwise the error it raises.
     */
    static method Create(h: Hierarchy, d: Declarations, cls: ClassId,
                         inputDict: Option<map<string, Value>>, entries: map<string, Value>)
      returns (s: Struct, outcome: CheckOutcome)
      requires WellFormed(h) && IsStructClass(h, cls)
      ensures fresh(s) && s.Valid() && s.h == h && s.d == d && s.cls == cls
      ensures s.fields == Merge(map[], inputDict, entries)[HasLoadedKey := TrueValue]
      ensures forall k :: k in entries && k != HasLoadedKey ==> s.GetItem(k) == Some(entries[k])
      ensures s.GetItem(HasLoadedKey) == Some(TrueValue)
      ensures !CheckOnInit(d, cls) ==> outcome == Passed
      ensures CheckOnInit(d, cls) ==> Reports(h, d, cls, s.fields, outcome)
      ensures outcome.Passed? <==> !CheckOnInit(d, cls) || Conforms(h, d, cls, s.fields)
    {
      s := new Struct(h, d, cls);
      s.LoadStructInputs(inputDict, entries);
      s.fields := s.fields[HasLoadedKey := TrueValue];
      if CheckOnInit(d, cls) {
        outcome := s.CheckStructSchema(None);
      } else {
        outcome := Passed;
      }
    }
  }
}

=== FILE: pytypes.dfy ===
/**
  The part of Python's runtime type system that the struct container relies
  on, made explicit: classes are names, `__bases__` is a map from a class to
  its bases in declaration order, and `isinstance` is reachability through
  that map.
 */
module PyTypes {

  /**
    A Python class, identified by a unique id: its identity, not its
    `__name__` (two classes may share a name).
   */
  type ClassId = string

  /** The universal base class. */
  const Object: ClassId := "object"
  /** Python 2's byte string and text string classes. */
  const Str: ClassId := "str"
  const Unicode: ClassId := "unicode"
  /** The class of `True` and `False`. */
  const Bool: ClassId := "bool"

  datatype Option<T> = None | Some(value: T)

  /** A runtime value: the class it is an instance of, and its identity. */
  datatype Value = Value(cls: ClassId, id: nat)

  /** The value `True`. */
  const TrueValue: Value := Value(Bool, 1)

  /**
    A class graph. `bases[c]` is `c.__bases__`; a class not in the map has no
    bases. `rank` is a height: every base ranks strictly below the class that
    names it, which is what makes the graph acyclic, as Python's is.
   */
  datatype Hierarchy = Hierarchy(bases: map<ClassId, seq<ClassId>>, rank: map<ClassId, nat>)

  function Bases(h: Hierarchy, c: ClassId): seq<ClassId>
  {
    if c in h.bases then h.bases[c] else []
  }

  function Rank(h: Hierarchy, c: ClassId): nat
  {
    if c in h.rank then h.rank[c] else 0
  }

  /** `object` has no bases, and every base ranks below its subclass. */
  predicate WellFormed(h: Hierarchy)
  {
    && Bases(h, Object) == []
    && forall c, i :: c in h.bases && 0 <= i < |h.bases[c]| ==> Rank(h, h.bases[c][i]) < Rank(h, c)
  }

  /** The class `c` and every class reachable from it through `__bases__`. */
  function Ancestors(h: Hierarchy, c: ClassId): (r: set<ClassId>)
    requires WellFormed(h)
    decreases Rank(h, c), |Bases(h, c)| + 1
  {
    {c} + AncestorsFrom(h, c, 0)
  }

  /** The ancestors of the bases of `c` from position `i` on. */
  function AncestorsFrom(h: Hierarchy, c: ClassId, i: nat): (r: set<ClassId>)
    requires WellFormed(h) && i <= |Bases(h, c)|
    decreases Rank(h, c), |Bases(h, c)| - i
  {
    if i == |Bases(h, c)| then {}
    else Ancestors(h, Bases(h, c)[i]) + AncestorsFrom(h, c, i + 1)
  }

  /** `isinstance(v, t)`: every value is an `object`; otherwise `t` must be an ancestor of the value's class. */
  predicate IsInstance(h: Hierarchy, v: Value, t: ClassId)
    requires WellFormed(h)
    ensures t == v.cls ==> IsInstance(h, v, t)
    ensures t == Object ==> IsInstance(h, v, t)
  {
    t == Object || t in Ancestors(h, v.cls)
  }

  /** A class is among its own ancestors, and so is every one of its bases. */
  lemma AncestorsOfBases(h: Hierarchy, c: ClassId)
    requires WellFormed(h)
    ensures c in Ancestors(h, c)
    ensures forall i :: 0 <= i < |Bases(h, c)| ==> Bases(h, c)[i] in Ancestors(h, c)
  {
    forall i | 0 <= i < |Bases(h, c)|
      ensures Bases(h, c)[i] in Ancestors(h, c)
    {
      AncestorsFromContains(h, c, 0, i);
    }
  }

  lemma {:induction false} AncestorsFromContains(h: Hierarchy, c: ClassId, i: nat, j: nat)
    requires WellFormed(h) && i <= j < |Bases(h, c)|
    ensures Bases(h, c)[j] in AncestorsFrom(h, c, i)
    decreases j - i
  {
    if i < j {
      AncestorsFromContains(h, c, i + 1, j);
    }
  }

  /**
    The ancestor relation is transitive: an ancestor's ancestors are ancestors.
    This is what makes `isinstance` hold for instances of subclasses.
   */
  lemma {:induction false} AncestorsTransitive(h: Hierarchy, c: ClassId, a: ClassId)
    requires WellFormed(h) && a in Ancestors(h, c)
    ensures Ancestors(h, a) <= Ancestors(h, c)
    decreases Rank(h, c), |Bases(h, c)| + 1
  {
    if a != c {
      AncestorsFromTransitive(h, c, 0, a);
    }
  }

  lemma {:induction false} AncestorsFromTransitive(h: Hierarchy, c: ClassId, i: nat, a: ClassId)
    requires WellFormed(h) && i <= |Bases(h, c)| && a in AncestorsFrom(h, c, i)
    ensures Ancestors(h, a) <= AncestorsFrom(h, c, i)
    decreases Rank(h, c), |Bases(h, c)| - i
  {
    var b := Bases(h, c)[i];
    if a in Ancestors(h, b) {
      AncestorsTransitive(h, b, a);
    } else {
      AncestorsFromTransitive(h, c, i + 1, a);
    }
  }

  /**
    No class is an ancestor of a class below it: every ancestor ranks no
    higher than the class, so the graph has no cycle through `__bases__`.
   */
  lemma {:induction false} AncestorsRank(h: Hierarchy, c: ClassId)
    requires WellFormed(h)
    ensures forall a :: a in Ancestors(h, c) ==> Rank(h, a) <= Rank(h, c)
    decreases Rank(h, c), |Bases(h, c)| + 1
  {
    AncestorsFromRank(h, c, 0);
  }

  lemma {:induction false} AncestorsFromRank(h: Hierarchy, c: ClassId, i: nat)
    requires WellFormed(h) && i <= |Bases(h, c)|
    ensures forall a :: a in AncestorsFrom(h, c, i) ==> Rank(h, a) < Rank(h, c)
    decreases Rank(h, c), |Bases(h, c)| - i
  {
    if i < |Bases(h, c)| {
      var b := Bases(h, c)[i];
      assert Rank(h, b) < Rank(h, c);
      AncestorsRank(h, b);
      AncestorsFromRank(h, c, i + 1);
    }
  }

  /** An instance of a class is an instance of each of that class's ancestors. */
  lemma InstanceOfSubclass(h: Hierarchy, v: Value, sub: ClassId, t: ClassId)
    requires WellFormed(h)
    requires sub in Ancestors(h, v.cls) && t in Ancestors(h, sub)
    ensures IsInstance(h, v, t)
  {
    AncestorsTransitive(h, v.cls, sub);
  }

  /** With a single base, the ancestors are the class and the base's ancestors. */
  lemma AncestorsSingleBase(h: Hierarchy, c: ClassId)
    requires WellFormed(h) && |Bases(h, c)| == 1
    ensures Ancestors(h, c) == {c} + Ancestors(h, Bases(h, c)[0])
  {
    assert AncestorsFrom(h, c, 1) == {};
  }
}

=== FILE: scenarios.dfy ===
/**
  Concrete class graphs from the repository's test suite, checked against the
  model: which field maps conform, and which schema a class hierarchy yields.
 */
module Scenarios {
  import opened PyTypes
  import Utils
  import opened DStruct

  const Float: ClassId := "float"
  const Int: ClassId := "int"

  /** `MapLocation(DStruct)`, `DStruct(object)`, and the label classes `Label(BaseLabel)`, `BaseLabel(object)`. */
  function MapHierarchy(): Hierarchy
  {
    Hierarchy(
      map["MapLocation" := ["DStruct"], "DStruct" := [Object], "Label" := ["BaseLabel"],
          "BaseLabel" := [Object], Float := [Object], Int := [Object]],
      map["MapLocation" := 2, "DStruct" := 1, "Label" := 2, "BaseLabel" := 1, Float := 1, Int := 1])
  }

  function MapSchema(): Schema
  {
    map["latitude" := Some(Float), "longitude" := Some(Float), "label" := Some("BaseLabel")]
  }

  function MapDeclarations(): Declarations
  {
    Declarations(map["MapLocation" := MapSchema()], {}, map[])
  }

  /** `extract_classes(MapLocation)` is `[MapLocation, DStruct]`, so the schema is `MapLocation`'s markers. */
  lemma MapLocationSchema()
    ensures WellFormed(MapHierarchy())
    ensures Utils.ExtractClasses(MapHierarchy(), "MapLocation") == ["MapLocation", "DStruct"]
    ensures SchemaOf(MapHierarchy(), MapDeclarations(), "MapLocation") == MapSchema()
    ensures IsStructClass(MapHierarchy(), "MapLocation")
  {
    var h := MapHierarchy();
    AncestorsOfBases(h, "MapLocation");
    Utils.ExtractClassesOfObject(h);
    Utils.ExtractClassesSingleBase(h, "DStruct");
    Utils.ExtractClassesSingleBase(h, "MapLocation");
    var d := MapDeclarations();
    var classes := ["MapLocation", "DStruct"];
    assert classes[..1] == ["MapLocation"] && ["MapLocation"][..0] == [];
    assert CollectMarkers(d, ["MapLocation"]) == MapSchema() by {
      assert map[] + MapSchema() == MapSchema();
    }
    assert OwnMarkers(d, "DStruct") == map[];
    assert CollectMarkers(d, classes) == MapSchema() + map[];
    assert MapSchema() + map[] == MapSchema();
  }

  /** The ancestors of the label and number classes, which decide each `isinstance`. */
  lemma MapAncestors()
    ensures WellFormed(MapHierarchy())
    ensures Ancestors(MapHierarchy(), "Label") == {"Label", "BaseLabel", Object}
    ensures Ancestors(MapHierarchy(), Float) == {Float, Object}
    ensures Ancestors(MapHierarchy(), Int) == {Int, Object}
  {
    var h := MapHierarchy();
    assert Ancestors(h, Object) == {Object};
    AncestorsSingleBase(h, "BaseLabel");
    AncestorsSingleBase(h, "Label");
    AncestorsSingleBase(h, Float);
    AncestorsSingleBase(h, Int);
  }

  function ValidLocation(): map<string, Value>
  {
    map["latitude" := Value(Float, 10), "longitude" := Value(Float, 11), "label" := Value("Label", 12)]
  }

  /** Each coordinate of the valid location is a `float`, and its label a `Label`, which is a `BaseLabel`. */
  lemma ValidLocationFields()
    ensures WellFormed(MapHierarchy())
    ensures Satisfies(MapHierarchy(), MapDeclarations(), "MapLocation", ValidLocation(), MapSchema(), "latitude")
    ensures Satisfies(MapHierarchy(), MapDeclarations(), "MapLocation", ValidLocation(), MapSchema(), "longitude")
    ensures Satisfies(MapHierarchy(), MapDeclarations(), "MapLocation", ValidLocation(), MapSchema(), "label")
  {
    var h, d := MapHierarchy(), MapDeclarations();
    AncestorsOfBases(h, Float);
    AncestorsOfBases(h, "Label");
    assert Bases(h, "Label")[0] == "BaseLabel";
    assert AllowedTypes(d, "MapLocation", Float)[0] == Float;
    assert AllowedTypes(d, "MapLocation", "BaseLabel")[0] == "BaseLabel";
  }

  /** All three fields present, floats for the coordinates and a `Label` (a `BaseLabel` subclass): accepted. */
  lemma MapLocationValid()
    ensures WellFormed(MapHierarchy())
    ensures Conforms(MapHierarchy(), MapDeclarations(), "MapLocation", ValidLocation())
  {
    MapLocationSchema();
    ValidLocationFields();
    assert MapSchema().Keys == {"latitude", "longitude", "label"};
  }

  /** `longitude=3`: an `int` is not an instance of `float`, which has no extra allowed types. */
  lemma IntLongitudeField()
    ensures WellFormed(MapHierarchy())
    ensures !Satisfies(MapHierarchy(), MapDeclarations(), "MapLocation",
                       ValidLocation()["longitude" := Value(Int, 3)], MapSchema(), "longitude")
  {
    var h, d := MapHierarchy(), MapDeclarations();
    MapAncestors();
    assert AllowedTypes(d, "MapLocation", Float) == [Float];
    assert !IsInstance(h, Value(Int, 3), Float);
  }

  /** `longitude=3`, an `int` where a `float` is required: rejected. */
  lemma MapLocationIntLongitude()
    ensures WellFormed(MapHierarchy())
    ensures !Conforms(MapHierarchy(), MapDeclarations(), "MapLocation", ValidLocation()["longitude" := Value(Int, 3)])
  {
    MapLocationSchema();
    IntLongitudeField();
  }

  /** No `label` at all: rejected. */
  lemma MapLocationMissingLabel()
    ensures WellFormed(MapHierarchy())
    ensures !Conforms(MapHierarchy(), MapDeclarations(), "MapLocation",
                      map["latitude" := Value(Float, 10), "longitude" := Value(Float, 11)])
  {
    var h, d := MapHierarchy(), MapDeclarations();
    MapLocationSchema();
    assert !Satisfies(h, d, "MapLocation", map["latitude" := Value(Float, 10), "longitude" := Value(Float, 11)],
                      MapSchema(), "label");
  }

  /** `HippieStruct(DStruct)`, with the builtin number and text classes. */
  function HippieHierarchy(): Hierarchy
  {
    Hierarchy(
      map["HippieStruct" := ["DStruct"], "DStruct" := [Object], Int := [Object], Float := [Object],
          Str := [Object], Unicode := [Object]],
      map["HippieStruct" := 2, "DStruct" := 1, Int := 1, Float := 1, Str := 1, Unicode := 1])
  }

  /**
    `HippieStruct` requires an `int` `x` and a `float` `y`. Its override of
    `get_extra_allowed_types` starts from the inherited rule and then lets
    `int` and `float` stand in for each other.
   */
  function HippieDeclarations(): Declarations
  {
    Declarations(map["HippieStruct" := map["x" := Some(Int), "y" := Some(Float)]], {},
                 map["HippieStruct" := map[Int := [Float], Float := [Int], Str := [Unicode], Unicode := [Str]]])
  }

  /** A `float` is acceptable for an `int` attribute and an `int` for a `float` one; a `str` still is not an `int`. */
  lemma HippieStructInterchange(n: nat)
    ensures WellFormed(HippieHierarchy())
    ensures Acceptable(HippieHierarchy(), HippieDeclarations(), "HippieStruct", Value(Float, n), Int)
    ensures Acceptable(HippieHierarchy(), HippieDeclarations(), "HippieStruct", Value(Int, n), Float)
    ensures !Acceptable(HippieHierarchy(), HippieDeclarations(), "HippieStruct", Value(Str, n), Int)
  {
    var h, d := HippieHierarchy(), HippieDeclarations();
    assert ExtraAllowedTypes(d, "HippieStruct", Int) == [Float];
    assert ExtraAllowedTypes(d, "HippieStruct", Float) == [Int];
    assert Float in ExtraAllowedTypes(d, "HippieStruct", Int) && IsInstance(h, Value(Float, n), Float);
    assert Int in ExtraAllowedTypes(d, "HippieStruct", Float) && IsInstance(h, Value(Int, n), Int);
    assert Ancestors(h, Object) == {Object};
    AncestorsSingleBase(h, Str);
  }

  /**
    `Sub(Base)` where both declare `x`: `extract_classes(Sub)` visits `Sub`
    before `Base`, so the base class's type overwrites the subclass's.
   */
  lemma BaseDeclarationOverwrites()
    ensures var h := Hierarchy(map["Sub" := ["Base"], "Base" := [Object]], map["Sub" := 2, "Base" := 1]);
      WellFormed(h)
      && SchemaOf(h, Declarations(map["Sub" := map["x" := Some(Int)], "Base" := map["x" := Some(Float)]], {}, map[]), "Sub")
         == map["x" := Some(Float)]
  {
    var h := Hierarchy(map["Sub" := ["Base"], "Base" := [Object]], map["Sub" := 2, "Base" := 1]);
    Utils.ExtractClassesOfObject(h);
    Utils.ExtractClassesSingleBase(h, "Base");
    Utils.ExtractClassesSingleBase(h, "Sub");
    var d := Declarations(map["Sub" := map["x" := Some(Int)], "Base" := map["x" := Some(Float)]], {}, map[]);
    var classes := ["Sub", "Base"];
    assert classes[..1] == ["Sub"] && ["Sub"][..0] == [];
    assert OwnMarkers(d, "Sub") == map["x" := Some(Int)];
    assert OwnMarkers(d, "Base") == map["x" := Some(Float)];
    assert CollectMarkers(d, ["Sub"]) == map["x" := Some(Int)] by {
      assert map[] + map["x" := Some(Int)] == map["x" := Some(Int)];
    }
    assert CollectMarkers(d, classes) == map["x" := Some(Int)] + map["x" := Some(Float)];
    assert map["x" := Some(Int)] + map["x" := Some(Float)] == map["x" := Some(Float)];
  }

  /** The diamond `D(B, C)`, `B(A)`, `C(A)`, `A(object)`. */
  function DiamondHierarchy(): Hierarchy
  {
    Hierarchy(map["D" := ["B", "C"], "B" := ["A"], "C" := ["A"], "A" := [Object]],
              map["D" := 3, "B" := 2, "C" := 2, "A" := 1])
  }

  lemma DiamondWellFormed()
    ensures WellFormed(DiamondHierarchy())
  {
    var h := DiamondHierarchy();
    assert Bases(h, Object) == [];
    forall c, i | c in h.bases && 0 <= i < |h.bases[c]|
      ensures Rank(h, h.bases[c][i]) < Rank(h, c)
    {
      assert c in {"D", "B", "C", "A"};
    }
  }

  /** The walk through the bases of `D`, before deduplication: `[B, A, C, A]`. */
  lemma DiamondBasesWalk()
    ensures WellFormed(DiamondHierarchy())
    ensures Utils.ExtractFrom(DiamondHierarchy(), "D", 0) == ["B", "A", "C", "A"]
  {
    DiamondWellFormed();
    var h := DiamondHierarchy();
    Utils.ExtractClassesSingleBase(h, "A");
    Utils.ExtractClassesSingleBase(h, "B");
    Utils.ExtractClassesSingleBase(h, "C");
    assert Utils.ExtractFrom(h, "D", 2) == [];
    assert Utils.ExtractFrom(h, "D", 1) == ["C", "A"];
  }

  /** Deduplicating the walk `[D, B, A, C, A]` drops the second `A`. */
  lemma DiamondDedupe()
    ensures Utils.Dedupe<ClassId>(["D", "B", "A", "C", "A"]) == ["D", "B", "A", "C"]
  {
    var xs: seq<ClassId> := ["D", "B", "A", "C", "A"];
    assert xs[1..] == ["B", "A", "C", "A"] && xs[1..][1..] == ["A", "C", "A"];
    assert xs[1..][1..][1..] == ["C", "A"] && xs[1..][1..][1..][1..] == ["A"];
    assert Utils.DedupeFrom({"D", "B", "A", "C"}, ["A"]) == [];
    assert Utils.DedupeFrom({"D", "B", "A"}, ["C", "A"]) == ["C"];
    assert Utils.DedupeFrom({"D", "B"}, ["A", "C", "A"]) == ["A", "C"];
    assert Utils.DedupeFrom({"D"}, ["B", "A", "C", "A"]) == ["B", "A", "C"];
  }

  /** `extract_classes(D)` is `[D, B, A, C]`: `A` is visited before its subclass `C`. */
  lemma DiamondExtract()
    ensures WellFormed(DiamondHierarchy())
    ensures Utils.ExtractClasses(DiamondHierarchy(), "D") == ["D", "B", "A", "C"]
  {
    DiamondBasesWalk();
    DiamondDedupe();
    var h := DiamondHierarchy();
    var d: ClassId := "D";
    var xs := [d] + Utils.ExtractFrom(h, d, 0);
    assert xs == ["D", "B", "A", "C", "A"];
    assert Object !in xs;
    assert Utils.RemoveFirst(xs, Object) == xs;
  }

  /**
    In the diamond, `A` declares `x` as `int` and its subclass `C` as
    `float`. `C` comes after `A` in `extract_classes(D)`, so here the
    subclass's type is the one that ends up in the schema.
   */
  lemma DiamondSubclassWins()
    ensures WellFormed(DiamondHierarchy())
    ensures SchemaOf(DiamondHierarchy(), Declarations(map["A" := map["x" := Some(Int)], "C" := map["x" := Some(Float)]], {}, map[]), "D")
            == map["x" := Some(Float)]
  {
    var d := Declarations(map["A" := map["x" := Some(Int)], "C" := map["x" := Some(Float)]], {}, map[]);
    DiamondExtract();
    var cs := ["D", "B", "A", "C"];
    assert cs[..3] == ["D", "B", "A"] && cs[..3][..2] == ["D", "B"] && cs[..3][..2][..1] == ["D"];
    assert ["D"][..0] == [];
    assert CollectMarkers(d, ["D"]) == map[];
    assert CollectMarkers(d, ["D", "B"]) == map[];
    assert CollectMarkers(d, ["D", "B", "A"]) == map["x" := Some(Int)];
    assert CollectMarkers(d, cs) == map["x" := Some(Int)] + map["x" := Some(Float)];
  }

  /** `Product(DStruct)` with `struct_schema_check_on_init = False` and a required `str` attribute `category`. */
  function ProductHierarchy(): Hierarchy
  {
    Hierarchy(map["Product" := ["DStruct"], "DStruct" := [Object], Str := [Object]],
              map["Product" := 2, "DStruct" := 1, Str := 1])
  }

  function ProductDeclarations(): Declarations
  {
    Declarations(map["Product" := map["category" := Some(Str)]], {"Product"}, map[])
  }

  lemma ProductSchema()
    ensures WellFormed(ProductHierarchy())
    ensures SchemaOf(ProductHierarchy(), ProductDeclarations(), "Product") == map["category" := Some(Str)]
    ensures IsStructClass(ProductHierarchy(), "Product")
  {
    var h, d := ProductHierarchy(), ProductDeclarations();
    AncestorsOfBases(h, "Product");
    Utils.ExtractClassesOfObject(h);
    Utils.ExtractClassesSingleBase(h, "DStruct");
    Utils.ExtractClassesSingleBase(h, "Product");
    var classes := ["Product", "DStruct"];
    assert classes[..1] == ["Product"] && ["Product"][..0] == [];
    assert CollectMarkers(d, ["Product"]) == map["category" := Some(Str)] by {
      assert map[] + map["category" := Some(Str)] == map["category" := Some(Str)];
    }
    assert OwnMarkers(d, "DStruct") == map[];
    assert CollectMarkers(d, classes) == map["category" := Some(Str)] + map[];
    assert map["category" := Some(Str)] + map[] == map["category" := Some(Str)];
  }

  /** A `str` or `unicode` value for the `str` attribute `category` is acceptable under the default rule. */
  lemma TextCategoryAcceptable(v: Value)
    requires v.cls == Str || v.cls == Unicode
    ensures WellFormed(ProductHierarchy())
    ensures Acceptable(ProductHierarchy(), ProductDeclarations(), "Product", v, Str)
  {
    DefaultRuleAcceptable(ProductHierarchy(), ProductDeclarations(), "Product", v, Str);
  }

  /** Without a `category` field, the only outcome a check of `Product` may report is the missing attribute. */
  lemma ProductWithoutCategory(fields: map<string, Value>, outcome: CheckOutcome)
    requires WellFormed(ProductHierarchy())
    requires "category" !in fields
    requires Reports(ProductHierarchy(), ProductDeclarations(), "Product", fields, outcome)
    ensures outcome == Missing("category")
  {
    ProductSchema();
    var schema := map["category" := Some(Str)];
    assert !Satisfies(ProductHierarchy(), ProductDeclarations(), "Product", fields, schema, "category");
    assert ReportsFor(ProductHierarchy(), ProductDeclarations(), "Product", fields, schema, outcome);
  }

  /** With a `str` or `unicode` value in `category`, the only outcome a check of `Product` may report is success. */
  lemma ProductWithTextCategory(fields: map<string, Value>, outcome: CheckOutcome)
    requires WellFormed(ProductHierarchy())
    requires "category" in fields && (fields["category"].cls == Str || fields["category"].cls == Unicode)
    requires Reports(ProductHierarchy(), ProductDeclarations(), "Product", fields, outcome)
    ensures outcome == Passed
  {
    ProductSchema();
    TextCategoryAcceptable(fields["category"]);
  }

  /**
    Deferred validation, as `Product` does it: construction without
    `category` returns normally because the class switches the check off;
    the explicit check afterwards reports the missing attribute; once the
    attribute is assigned, the check passes.
   */
  method DeferredCheckScenario() returns (atInit: CheckOutcome, beforeAssign: CheckOutcome, afterAssign: CheckOutcome)
    ensures atInit == Passed
    ensures beforeAssign == Missing("category")
    ensures afterAssign == Passed
  {
    var h, d := ProductHierarchy(), ProductDeclarations();
    ProductSchema();
    var s;
    s, atInit := Struct.Create(h, d, "Product", None, map["name" := Value(Str, 20)]);
    assert "category" !in s.fields;
    beforeAssign := s.CheckStructSchema(None);
    ProductWithoutCategory(s.fields, beforeAssign);
    s.fields := s.fields["category" := Value(Str, 21)];
    afterAssign := s.CheckStructSchema(None);
    ProductWithTextCategory(s.fields, afterAssign);
  }

  /** `int` is no struct class: its ancestors are `int` and `object`. */
  lemma IntIsNoStruct()
    ensures WellFormed(MapHierarchy())
    ensures !IsStructClass(MapHierarchy(), Int)
  {
    MapAncestors();
  }

  /**
    `check_struct_schema(int)` on a `MapLocation` built from a valid
    location: `int` is no struct class, so looking up its schema raises
    `AttributeError`, whatever the fields hold.
   */
  method NonStructTargetScenario() returns (outcome: CheckOutcome)
    ensures outcome == NoSchema(Int)
  {
    var h, d := MapHierarchy(), MapDeclarations();
    MapLocationSchema();
    IntIsNoStruct();
    var s, atInit := Struct.Create(h, d, "MapLocation", None, ValidLocation());
    outcome := s.CheckStructSchema(Some(Int));
  }
}

=== FILE: utils.dfy ===
/**
  The list, string and class-graph helpers of `utils.py`: `dedupe_list`,
  `snake_to_mixed` and `extract_classes`, each with the reference definition
  it is proved against and the properties callers rely on.
 */
module Utils {
  import opened PyTypes

  // ---------------------------------------------------------------------------
  // Sequences
  // ---------------------------------------------------------------------------

  /** The elements of a sequence, as a set. */
  function Elems<T>(xs: seq<T>): set<T>
  {
    set x | x in xs
  }

  predicate NoDuplicates<T(==)>(xs: seq<T>)
  {
    forall i, j :: 0 <= i < j < |xs| ==> xs[i] != xs[j]
  }

  /** The position of the first occurrence of `x` in `xs`. */
  function IndexOf<T(==)>(xs: seq<T>, x: T): (k: nat)
    requires x in xs
    ensures k < |xs| && xs[k] == x && x !in xs[..k]
  {
    if xs[0] == x then 0
    else
      var k' := IndexOf(xs[1..], x);
      assert xs[..k' + 1] == [xs[0]] + xs[1..][..k'];
      k' + 1
  }

  /** `xs` with every occurrence of `o` dropped. */
  function Without<T(==)>(xs: seq<T>, o: T): seq<T>
  {
    if xs == [] then []
    else (if xs[0] == o then [] else [xs[0]]) + Without(xs[1..], o)
  }

  /** Python's `list.remove` when `o` is present: the first occurrence of `o` goes, nothing else changes. */
  function RemoveFirst<T(==)>(xs: seq<T>, o: T): (r: seq<T>)
    ensures o in xs ==> r == xs[..IndexOf(xs, o)] + xs[IndexOf(xs, o) + 1..]
    ensures o !in xs ==> r == xs
  {
    if xs == [] then []
    else if xs[0] == o then xs[1..]
    else
      var t := xs[1..];
      var rest := RemoveFirst(t, o);
      assert xs == [xs[0]] + t;
      if o in t then
        var k := IndexOf(t, o);
        assert IndexOf(xs, o) == k + 1;
        assert xs[..k + 1] == [xs[0]] + t[..k] && xs[k + 2..] == t[k + 1..];
        [xs[0]] + rest
      else
        [xs[0]] + rest
  }

  lemma {:induction false} WithoutConcat<T>(xs: seq<T>, ys: seq<T>, o: T)
    ensures Without(xs + ys, o) == Without(xs, o) + Without(ys, o)
    decreases |xs|
  {
    if xs == [] {
      assert xs + ys == ys;
    } else {
      assert (xs + ys)[1..] == xs[1..] + ys;
      WithoutConcat(xs[1..], ys, o);
    }
  }

  lemma {:induction false} WithoutElems<T>(xs: seq<T>, o: T)
    ensures forall x :: x in Without(xs, o) <==> x in xs && x != o
    decreases |xs|
  {
    if xs != [] {
      WithoutElems(xs[1..], o);
    }
  }

  // ---------------------------------------------------------------------------
  // dedupe_list
  // ---------------------------------------------------------------------------

  /**
    The list comprehension of `dedupe_list` run with its `seen` set already
    holding `seen`: an element is kept when it is not yet seen, and is then
    added to `seen`.
   */
  function DedupeFrom<T(==)>(seen: set<T>, xs: seq<T>): seq<T>
    decreases |xs|
  {
    if xs == [] then []
    else if xs[0] in seen then DedupeFrom(seen, xs[1..])
    else [xs[0]] + DedupeFrom(seen + {xs[0]}, xs[1..])
  }

  /** `dedupe_list(xs)`: the comprehension started with an empty `seen` set. */
  function Dedupe<T(==)>(xs: seq<T>): seq<T>
  {
    DedupeFrom({}, xs)
  }

  /** `dedupe_list`, as the comprehension driven by a mutated `seen` set. */
  method DedupeList<T(==)>(inputList: seq<T>) returns (deduped: seq<T>)
    ensures deduped == Dedupe(inputList)
  {
    var seen: set<T> := {};
    deduped := [];
    for i := 0 to |inputList|
      invariant deduped + DedupeFrom(seen, inputList[i..]) == Dedupe(inputList)
    {
      var x := inputList[i];
      assert inputList[i..][1..] == inputList[i + 1..];
      if x !in seen {
        deduped := deduped + [x];
        seen := seen + {x};
      }
    }
  }

  /** The output holds exactly the input's elements that are not already seen. */
  lemma {:induction false} DedupeFromElems<T>(seen: set<T>, xs: seq<T>)
    ensures forall x :: x in DedupeFrom(seen, xs) <==> x in xs && x !in seen
    decreases |xs|
  {
    if xs != [] {
      if xs[0] in seen {
        DedupeFromElems(seen, xs[1..]);
      } else {
        DedupeFromElems(seen + {xs[0]}, xs[1..]);
      }
    }
  }

  lemma {:induction false} DedupeFromNoDuplicates<T>(seen: set<T>, xs: seq<T>)
    ensures NoDuplicates(DedupeFrom(seen, xs))
    decreases |xs|
  {
    if xs != [] {
      if xs[0] in seen {
        DedupeFromNoDuplicates(seen, xs[1..]);
      } else {
        var rest := DedupeFrom(seen + {xs[0]}, xs[1..]);
        DedupeFromNoDuplicates(seen + {xs[0]}, xs[1..]);
        DedupeFromElems(seen + {xs[0]}, xs[1..]);
        assert xs[0] !in rest;
      }
    }
  }

  /** Kept elements appear in the order of their first occurrence in the input. */
  lemma {:induction false} DedupeFromOrder<T>(seen: set<T>, xs: seq<T>)
    ensures forall i :: 0 <= i < |DedupeFrom(seen, xs)| ==> DedupeFrom(seen, xs)[i] in xs
    ensures forall i, j :: 0 <= i < j < |DedupeFrom(seen, xs)| ==>
      IndexOf(xs, DedupeFrom(seen, xs)[i]) < IndexOf(xs, DedupeFrom(seen, xs)[j])
    decreases |xs|
  {
    if xs != [] {
      var x := xs[0];
      var t := xs[1..];
      if x in seen {
        DedupeFromOrder(seen, t);
        DedupeFromElems(seen, t);
        var r := DedupeFrom(seen, t);
        forall i | 0 <= i < |r| ensures r[i] in xs && IndexOf(xs, r[i]) == IndexOf(t, r[i]) + 1 {
          assert r[i] in r;
        }
      } else {
        DedupeFromOrder(seen + {x}, t);
        DedupeFromElems(seen + {x}, t);
        var r' := DedupeFrom(seen + {x}, t);
        forall i | 0 <= i < |r'| ensures r'[i] in xs && IndexOf(xs, r'[i]) == IndexOf(t, r'[i]) + 1 {
          assert r'[i] in r';
        }
        var r := [x] + r';
        assert DedupeFrom(seen, xs) == r;
        forall i, j | 0 <= i < j < |r| ensures IndexOf(xs, r[i]) < IndexOf(xs, r[j]) {
          if i > 0 {
            assert r[i] == r'[i - 1] && r[j] == r'[j - 1];
          }
        }
      }
    }
  }

  /** A list without duplicates is its own deduplication. */
  lemma {:induction false} DedupeFromUnchanged<T>(seen: set<T>, xs: seq<T>)
    requires NoDuplicates(xs)
    requires forall x :: x in xs ==> x !in seen
    ensures DedupeFrom(seen, xs) == xs
    decreases |xs|
  {
    if xs != [] {
      forall x | x in xs[1..] ensures x !in seen + {xs[0]} {
        var k :| 0 <= k < |xs[1..]| && xs[1..][k] == x;
        assert xs[k + 1] == x;
      }
      assert NoDuplicates(xs[1..]) by {
        forall i, j | 0 <= i < j < |xs[1..]| ensures xs[1..][i] != xs[1..][j] {
          assert xs[1..][i] == xs[i + 1] && xs[1..][j] == xs[j + 1];
        }
      }
      DedupeFromUnchanged(seen + {xs[0]}, xs[1..]);
    }
  }

  /** Deduplicating a concatenation: the second part starts with the first part's elements seen. */
  lemma {:induction false} DedupeFromConcat<T>(seen: set<T>, xs: seq<T>, ys: seq<T>)
    ensures DedupeFrom(seen, xs + ys) == DedupeFrom(seen, xs) + DedupeFrom(seen + Elems(xs), ys)
    decreases |xs|
  {
    if xs == [] {
      assert xs + ys == ys;
      assert seen + Elems(xs) == seen;
    } else {
      var x := xs[0];
      assert (xs + ys)[0] == x && (xs + ys)[1..] == xs[1..] + ys;
      assert Elems(xs) == {x} + Elems(xs[1..]);
      if x in seen {
        DedupeFromConcat(seen, xs[1..], ys);
        assert seen + Elems(xs[1..]) == seen + Elems(xs);
      } else {
        DedupeFromConcat(seen + {x}, xs[1..], ys);
        assert seen + {x} + Elems(xs[1..]) == seen + Elems(xs);
      }
    }
  }

  /** Deduplicating twice is deduplicating once with both seen sets. */
  lemma {:induction false} DedupeFromTwice<T>(s: set<T>, t: set<T>, xs: seq<T>)
    ensures DedupeFrom(s, DedupeFrom(t, xs)) == DedupeFrom(s + t, xs)
    decreases |xs|
  {
    if xs != [] {
      var x := xs[0];
      if x in t {
        DedupeFromTwice(s, t, xs[1..]);
      } else {
        var inner := DedupeFrom(t + {x}, xs[1..]);
        assert ([x] + inner)[0] == x && ([x] + inner)[1..] == inner;
        DedupeFromTwice(s, t + {x}, xs[1..]);
        if x in s {
          assert s + (t + {x}) == s + t;
        } else {
          DedupeFromTwice(s + {x}, t + {x}, xs[1..]);
          assert s + {x} + (t + {x}) == s + t + {x};
          assert s + t + {x} == s + (t + {x});
        }
      }
    }
  }

  /** `dedupe_list` returns the input's elements, each once, in order of first occurrence. */
  lemma DedupeCorrect<T>(xs: seq<T>)
    ensures Elems(Dedupe(xs)) == Elems(xs)
    ensures NoDuplicates(Dedupe(xs))
    ensures forall i, j :: 0 <= i < j < |Dedupe(xs)| ==>
      Dedupe(xs)[i] in xs && Dedupe(xs)[j] in xs && IndexOf(xs, Dedupe(xs)[i]) < IndexOf(xs, Dedupe(xs)[j])
  {
    DedupeFromElems({}, xs);
    DedupeFromNoDuplicates({}, xs);
    DedupeFromOrder({}, xs);
  }

  /** `dedupe_list` leaves a list that has no duplicates unchanged. */
  lemma DedupeUnchanged<T>(xs: seq<T>)
    requires NoDuplicates(xs)
    ensures Dedupe(xs) == xs
  {
    DedupeFromUnchanged({}, xs);
  }

  /** Deduplicating twice is deduplicating once. */
  lemma DedupeIdempotent<T>(xs: seq<T>)
    ensures Dedupe(Dedupe(xs)) == Dedupe(xs)
  {
    DedupeCorrect(xs);
    DedupeUnchanged(Dedupe(xs));
  }

  // ---------------------------------------------------------------------------
  // Strings: str.split, str.join, str.capitalize, string.capwords
  // ---------------------------------------------------------------------------

  /**
    Splits `s` at every character in `seps`, keeping empty parts: for a single
    separator this is Python's `s.split(sep)`. The parts hold only characters
    of `s`, and never a separator.
   */
  function SplitOn(s: string, seps: set<char>): (parts: seq<string>)
    ensures |parts| >= 1
    ensures forall k :: 0 <= k < |parts| ==> forall ch :: ch in parts[k] ==> ch in s && ch !in seps
    decreases |s|
  {
    if s == [] then [""]
    else
      var rest := SplitOn(s[1..], seps);
      assert forall ch :: ch in s[1..] ==> ch in s;
      if s[0] in seps then [""] + rest
      else [[s[0]] + rest[0]] + rest[1..]
  }

  /**
    `sep.join(parts)`. The result starts with the first part, and holds
    nothing but characters of the separator and of the parts.
   */
  function Join(parts: seq<string>, sep: string): (r: string)
    ensures |parts| >= 1 ==> parts[0] <= r
    ensures forall ch :: ch in r ==> ch in sep || exists k :: 0 <= k < |parts| && ch in parts[k]
  {
    if parts == [] then ""
    else if |parts| == 1 then parts[0]
    else
      var rest := Join(parts[1..], sep);
      assert forall k :: 0 <= k < |parts| - 1 ==> parts[1..][k] == parts[k + 1];
      parts[0] + sep + rest
  }

  /** Joining the parts with the separator gives back the string that was split. */
  lemma {:induction false} SplitJoin(s: string, c: char)
    ensures Join(SplitOn(s, {c}), [c]) == s
    decreases |s|
  {
    if s != [] {
      var rest := SplitOn(s[1..], {c});
      SplitJoin(s[1..], c);
      if s[0] != c && |rest| > 1 {
        assert Join(rest, [c]) == rest[0] + [c] + Join(rest[1..], [c]);
        assert s == [s[0]] + s[1..];
      }
    }
  }

  /** A string without separators is a single part. */
  lemma {:induction false} SplitOnAbsent(s: string, seps: set<char>)
    requires forall ch :: ch in s ==> ch !in seps
    ensures SplitOn(s, seps) == [s]
    decreases |s|
  {
    if s != [] {
      assert forall ch :: ch in s[1..] ==> ch in s;
      SplitOnAbsent(s[1..], seps);
      assert [s[0]] + s[1..] == s;
    }
  }

  /** Python's whitespace characters (what `str.split()` with no separator splits on). */
  const Whitespace: set<char> := {' ', '\t', '\n', '\r', 11 as char, 12 as char}

  function UpperChar(c: char): char
  {
    if 'a' <= c <= 'z' then (c as int - 32) as char else c
  }

  function LowerChar(c: char): char
  {
    if 'A' <= c <= 'Z' then (c as int + 32) as char else c
  }

  predicate IsAsciiLetter(ch: char)
  {
    'A' <= ch <= 'Z' || 'a' <= ch <= 'z'
  }

  /**
    `str.capitalize`: first character upper-cased, the rest lower-cased. Only
    letters change, so every character of the result is one of the word's or
    an ASCII letter.
   */
  function Capitalize(w: string): (r: string)
    ensures |r| == |w|
    ensures |w| > 0 ==> r[0] == UpperChar(w[0])
    ensures forall i :: 0 < i < |w| ==> r[i] == LowerChar(w[i])
    ensures forall ch :: ch in r ==> ch in w || IsAsciiLetter(ch)
  {
    if w == [] then []
    else [UpperChar(w[0])] + seq(|w| - 1, i requires 0 <= i < |w| - 1 => LowerChar(w[i + 1]))
  }

  /** The parts that are not empty, in order. */
  function NonEmpty(parts: seq<string>): (r: seq<string>)
    ensures forall k :: 0 <= k < |r| ==> r[k] != "" && r[k] in parts
  {
    if parts == [] then []
    else (if parts[0] == "" then [] else [parts[0]]) + NonEmpty(parts[1..])
  }

  /** `w.capitalize()` for every word `w`. */
  function CapitalizeEach(words: seq<string>): (r: seq<string>)
    ensures |r| == |words|
    ensures forall k :: 0 <= k < |r| ==> r[k] == Capitalize(words[k])
  {
    seq(|words|, k requires 0 <= k < |words| => Capitalize(words[k]))
  }

  /** Every character of a capitalized non-empty part of `s` is from `s` or an ASCII letter. */
  lemma CapitalizedPartsChars(s: string, seps: set<char>)
    ensures var caps := CapitalizeEach(NonEmpty(SplitOn(s, seps)));
      forall k, ch :: 0 <= k < |caps| && ch in caps[k] ==> ch in s || IsAsciiLetter(ch)
  {
    var parts := SplitOn(s, seps);
    var words := NonEmpty(parts);
    forall k, ch | 0 <= k < |words| && ch in Capitalize(words[k]) && !IsAsciiLetter(ch)
      ensures ch in s
    {
      var j :| 0 <= j < |parts| && parts[j] == words[k];
    }
  }

  /**
    `string.capwords(s)`: `' '.join(w.capitalize() for w in s.split())`. It
    introduces nothing but spaces and case changes: every character of the
    result is from `s`, a space, or an ASCII letter.
   */
  function CapWords(s: string): (r: string)
    ensures forall ch :: ch in r ==> ch in s || ch == ' ' || IsAsciiLetter(ch)
  {
    CapitalizedPartsChars(s, Whitespace);
    Join(CapitalizeEach(NonEmpty(SplitOn(s, Whitespace))), " ")
  }

  /** On a whitespace-free word, `capwords` is `capitalize`. */
  lemma CapWordsSingleWord(w: string)
    requires forall ch :: ch in w ==> ch !in Whitespace
    ensures CapWords(w) == Capitalize(w)
  {
    SplitOnAbsent(w, Whitespace);
    assert NonEmpty([w]) == (if w == "" then [] else [w]) by {
      assert [w][1..] == [];
    }
  }

  // ---------------------------------------------------------------------------
  // snake_to_mixed
  // ---------------------------------------------------------------------------

  /** The words of `snake_to_mixed`: the first kept, every later one passed through `capwords`. */
  function MixedWords(words: seq<string>): (r: seq<string>)
    ensures |r| == |words|
  {
    seq(|words|, i requires 0 <= i < |words| => if i == 0 then words[0] else CapWords(words[i]))
  }

  /** What `snake_to_mixed` computes: split on `_`, capwords every word after the first, join. */
  function MixedCase(s: string): string
  {
    Join(MixedWords(SplitOn(s, {'_'})), "")
  }

  /** `snake_to_mixed`, overwriting the words of the split list in a loop. */
  method SnakeToMixed(underscoreInput: string) returns (ret: string)
    ensures ret == MixedCase(underscoreInput)
  {
    var wordList := SplitOn(underscoreInput, {'_'});
    ghost var words := wordList;
    var wordCount := |wordList|;
    if wordCount > 1 {
      for i := 1 to wordCount
        invariant |wordList| == wordCount
        invariant forall j :: 0 <= j < wordCount ==>
          wordList[j] == if 1 <= j < i then CapWords(words[j]) else words[j]
      {
        wordList := wordList[i := CapWords(wordList[i])];
      }
    }
    assert wordList == MixedWords(words);
    ret := Join(wordList, "");
  }

  /** An input without `_` comes back unchanged. */
  lemma MixedCaseNoUnderscoreUnchanged(s: string)
    requires '_' !in s
    ensures MixedCase(s) == s
  {
    SplitOnAbsent(s, {'_'});
  }

  /** The result holds no `_` and starts with the input's first segment, verbatim. */
  lemma MixedCaseNoUnderscore(s: string)
    ensures '_' !in MixedCase(s)
    ensures SplitOn(s, {'_'})[0] <= MixedCase(s)
  {
    var words := SplitOn(s, {'_'});
    var mixed := MixedWords(words);
    forall k | 0 <= k < |mixed| ensures '_' !in mixed[k] {
      assert '_' !in words[k];
    }
  }

  /**
    On an input without whitespace, each later segment is capitalized: its
    first character upper-cased and the rest lower-cased.
   */
  lemma MixedCaseWhitespaceFree(s: string)
    requires forall ch :: ch in s ==> ch !in Whitespace
    ensures var words := SplitOn(s, {'_'});
      MixedCase(s) == Join(seq(|words|, i requires 0 <= i < |words| =>
                               if i == 0 then words[0] else Capitalize(words[i])), "")
  {
    var words := SplitOn(s, {'_'});
    forall i | 1 <= i < |words| ensures CapWords(words[i]) == Capitalize(words[i]) {
      CapWordsSingleWord(words[i]);
    }
    assert MixedWords(words) == seq(|words|, i requires 0 <= i < |words| =>
                                    if i == 0 then words[0] else Capitalize(words[i]));
  }

  // ---------------------------------------------------------------------------
  // extract_classes
  // ---------------------------------------------------------------------------

  /**
    `extract_classes(c)`: the class, then the extracted ancestors of each base
    in declaration order, with `object` removed and duplicates dropped. The
    result never holds `object` (the recursive results do not, so the one
    `remove` takes out the only occurrence), has no duplicates, and starts
    with `c` itself unless `c` is `object`.
   */
  function ExtractClasses(h: Hierarchy, c: ClassId): (r: seq<ClassId>)
    requires WellFormed(h)
    ensures Object !in r
    ensures NoDuplicates(r)
    ensures c != Object ==> |r| > 0 && r[0] == c
    decreases Rank(h, c), |Bases(h, c)| + 1
  {
    var extracted := [c] + ExtractFrom(h, c, 0);
    var removed := RemoveFirst(extracted, Object);
    assert extracted[0] == c && extracted[1..] == ExtractFrom(h, c, 0);
    assert Object !in removed;
    DedupeFromElems({}, removed);
    DedupeFromNoDuplicates({}, removed);
    Dedupe(removed)
  }

  /** The concatenation of `extract_classes(b)` over the bases `b` of `c` from position `i` on. */
  function ExtractFrom(h: Hierarchy, c: ClassId, i: nat): (r: seq<ClassId>)
    requires WellFormed(h) && i <= |Bases(h, c)|
    ensures Object !in r
    decreases Rank(h, c), |Bases(h, c)| - i
  {
    if i == |Bases(h, c)| then []
    else ExtractClasses(h, Bases(h, c)[i]) + ExtractFrom(h, c, i + 1)
  }

  /** The plain depth-first pre-order walk through `__bases__`, repeats and `object` included. */
  function PreOrder(h: Hierarchy, c: ClassId): seq<ClassId>
    requires WellFormed(h)
    decreases Rank(h, c), |Bases(h, c)| + 1
  {
    [c] + PreOrderFrom(h, c, 0)
  }

  function PreOrderFrom(h: Hierarchy, c: ClassId, i: nat): seq<ClassId>
    requires WellFormed(h) && i <= |Bases(h, c)|
    decreases Rank(h, c), |Bases(h, c)| - i
  {
    if i == |Bases(h, c)| then []
    else PreOrder(h, Bases(h, c)[i]) + PreOrderFrom(h, c, i + 1)
  }

  /**
    `extract_classes` is the depth-first pre-order walk, bases in declaration
    order, without `object`, keeping only the first occurrence of each class.
   */
  lemma {:induction false} ExtractIsDedupedPreOrder(h: Hierarchy, c: ClassId)
    requires WellFormed(h)
    ensures ExtractClasses(h, c) == Dedupe(Without(PreOrder(h, c), Object))
    decreases Rank(h, c), |Bases(h, c)| + 1
  {
    var e := ExtractFrom(h, c, 0);
    var p := PreOrderFrom(h, c, 0);
    var head := Without([c], Object);
    assert head == if c == Object then [] else [c] by {
      assert [c][1..] == [] && Without([c][1..], Object) == [];
    }
    ExtractFromIsPreOrder(h, c, 0, {});
    ExtractFromIsPreOrder(h, c, 0, Elems(head));
    assert RemoveFirst([c] + e, Object) == head + e by {
      assert ([c] + e)[1..] == e && [c][1..] == [];
      if c != Object {
        assert RemoveFirst([c] + e, Object) == [c] + RemoveFirst(e, Object);
      }
    }
    WithoutConcat([c], p, Object);
    DedupeFromConcat({}, head, e);
    DedupeFromConcat({}, head, Without(p, Object));
    assert {} + Elems(head) == Elems(head);
  }

  lemma {:induction false} ExtractFromIsPreOrder(h: Hierarchy, c: ClassId, i: nat, seen: set<ClassId>)
    requires WellFormed(h) && i <= |Bases(h, c)|
    ensures DedupeFrom(seen, ExtractFrom(h, c, i)) == DedupeFrom(seen, Without(PreOrderFrom(h, c, i), Object))
    decreases Rank(h, c), |Bases(h, c)| - i
  {
    if i < |Bases(h, c)| {
      var b := Bases(h, c)[i];
      var xb := ExtractClasses(h, b);
      var wb := Without(PreOrder(h, b), Object);
      var rest := Without(PreOrderFrom(h, c, i + 1), Object);
      ExtractIsDedupedPreOrder(h, b);
      DedupeFromElems({}, wb);
      WithoutElems(PreOrder(h, b), Object);
      assert Elems(xb) == Elems(wb);
      ExtractFromIsPreOrder(h, c, i + 1, seen + Elems(wb));
      DedupeFromConcat(seen, xb, ExtractFrom(h, c, i + 1));
      DedupeFromTwice(seen, {}, wb);
      assert seen + {} == seen;
      WithoutConcat(PreOrder(h, b), PreOrderFrom(h, c, i + 1), Object);
      DedupeFromConcat(seen, wb, rest);
    }
  }

  /** The pre-order walk visits exactly the ancestors. */
  lemma {:induction false} PreOrderElems(h: Hierarchy, c: ClassId)
    requires WellFormed(h)
    ensures Elems(PreOrder(h, c)) == Ancestors(h, c)
    decreases Rank(h, c), |Bases(h, c)| + 1
  {
    PreOrderFromElems(h, c, 0);
    assert Elems(PreOrder(h, c)) == {c} + Elems(PreOrderFrom(h, c, 0));
  }

  lemma {:induction false} PreOrderFromElems(h: Hierarchy, c: ClassId, i: nat)
    requires WellFormed(h) && i <= |Bases(h, c)|
    ensures Elems(PreOrderFrom(h, c, i)) == AncestorsFrom(h, c, i)
    decreases Rank(h, c), |Bases(h, c)| - i
  {
    if i < |Bases(h, c)| {
      var b := Bases(h, c)[i];
      PreOrderElems(h, b);
      PreOrderFromElems(h, c, i + 1);
      assert Elems(PreOrderFrom(h, c, i)) == Elems(PreOrder(h, b)) + Elems(PreOrderFrom(h, c, i + 1));
    }
  }

  /**
    `extract_classes(c)` has no duplicates, never holds `object`, starts with
    `c` itself unless `c` is `object`, and holds exactly `c` and the classes
    reachable through `__bases__`, `object` excepted.
   */
  lemma ExtractClassesCorrect(h: Hierarchy, c: ClassId)
    requires WellFormed(h)
    ensures NoDuplicates(ExtractClasses(h, c))
    ensures Object !in ExtractClasses(h, c)
    ensures forall x :: x in ExtractClasses(h, c) <==> x in Ancestors(h, c) && x != Object
    ensures c != Object ==> |ExtractClasses(h, c)| > 0 && ExtractClasses(h, c)[0] == c
  {
    var walk := Without(PreOrder(h, c), Object);
    ExtractIsDedupedPreOrder(h, c);
    DedupeFromNoDuplicates({}, walk);
    DedupeFromElems({}, walk);
    WithoutElems(PreOrder(h, c), Object);
    PreOrderElems(h, c);
    if c != Object {
      assert walk == [c] + Without(PreOrderFrom(h, c, 0), Object) by {
        WithoutConcat([c], PreOrderFrom(h, c, 0), Object);
      }
    }
  }

  /** `extract_classes(object)` is empty. */
  lemma ExtractClassesOfObject(h: Hierarchy)
    requires WellFormed(h)
    ensures ExtractClasses(h, Object) == []
  {
    assert [Object][1..] == [];
  }

  /** With a single base, `extract_classes(c)` is `c` followed by the extraction of that base. */
  lemma ExtractClassesSingleBase(h: Hierarchy, c: ClassId)
    requires WellFormed(h) && c != Object && |Bases(h, c)| == 1
    ensures ExtractClasses(h, c) == [c] + ExtractClasses(h, Bases(h, c)[0])
  {
    var b := Bases(h, c)[0];
    var xs := ExtractClasses(h, b);
    ExtractClassesCorrect(h, b);
    AncestorsRank(h, b);
    assert c !in xs;
    assert ExtractFrom(h, c, 0) == xs + ExtractFrom(h, c, 1);
    assert ExtractFrom(h, c, 0) == xs;
    assert RemoveFirst([c] + xs, Object) == [c] + xs;
    assert ([c] + xs)[0] == c && ([c] + xs)[1..] == xs;
    assert {} + {c} == {c};
    DedupeFromUnchanged({c}, xs);
    assert Dedupe([c] + xs) == [c] + DedupeFrom({c}, xs);
  }
}
